=== FILE: README.md ===
# prometheus-render, modelled in Dafny

`prometheus_render.py` renders a PromQL query as a PNG chart. It parses a
human time range such as `24h`, asks the metrics endpoint's `query_range` API
for the series over that window, labels each series from its tag set, and can
overlay vertical event markers from a second query. It then draws the chart
with matplotlib.

This project models the pure logic between the command line and the
plotting library, and proves properties of it:

- `RangeParser` (range_parser.dfy): `parse_range`. The model is a scanner:
  a greedy digit run, then exactly one unit letter, then the end of input.
  The accepted language and the value in seconds are proved against an
  independent reading of the pattern `(\d+)([smhdw])`.
- `MetricLabels` (metric_labels.dfy): `metric_label`. A label set (a JSON
  object decoded to a Python dict) is a sequence of `(key, value)` pairs with
  distinct keys, kept in insertion order. `sorted(metric.items())` is an
  insertion sort by key under Python's string order. The reserved keys are
  filtered out, and the parts are joined by `", "`, with the fallback to the
  metric name or `"value"`.
- `QueryResponse` (query_response.dfy): the decoded answer (`status`,
  `error`, `data.result`) and the checks `main` makes on the primary answer.
- `Markers` (markers.dfy): marker-event extraction, the stable sort by
  instant, and the marker overlay rules of `main`.
- `RenderPlan` (render_plan.dfy): the derived parameters of `main`. These
  are the query window, the default and resolved step, the plotted lines,
  the tick format, the title and legend rules, and the exit status. `main`
  itself, minus its I/O, is the function `Render`.
- `Text` (text.dfy): Python's `str` ordering (proved a strict total order),
  ASCII decimal digits, `str(n)` and `int(s)` for naturals (proved mutually
  inverse), `str.join` and `in` on strings.
- `Diagnostics` (diagnostics.dfy): the fatal conditions, their one-line
  messages and exit status 1.
- `Wrappers` (wrappers.dfy): `Option` and `Result`.

In the program a fatal condition prints a line and calls `sys.exit(1)`. In
the model it is a returned `Failure` value. The wall clock and both HTTP
answers are parameters of `Render`.

Warnings about the marker query are narrower than its failures. A marker
answer whose `status` is not `"success"` yields no markers and no warning
(line 181). Request, decoding, missing-key and timestamp-conversion failures
print the warning (lines 195-196). The conversion failures are a `ValueError`
from `float` at line 187 or from `datetime.fromtimestamp` at line 193.
`MarkerOverlay` models request, decoding, missing-key and line-187 failures
as a failed fetch. Conversion failures at line 193 keep the markers already
drawn, and they are listed under "Left out".

## Model

| member | source | states |
|---|---|---|
| RangeParser.ParseRangeAcceptsExactly | prometheus_render.py:20-26 | a range string is accepted iff the whole string is one or more ASCII digits followed by exactly one of `s m h d w` |
| RangeParser.MatchesRangeSyntax | prometheus_render.py:20 | the pattern `(\d+)([smhdw])` under `re.fullmatch`, read off directly: at least two characters, all but the last ASCII digits, the last a unit letter |
| RangeParser.UnitSeconds | prometheus_render.py:28 | the multiplier table is defined exactly on `s m h d w`, and every multiplier is positive |
| RangeParser.UnitsNest | prometheus_render.py:28 | the table is the usual unit chain: a second is 1, a minute 60 seconds, an hour 60 minutes, a day 24 hours and a week 7 days |
| RangeParser.ParseRangeValue | prometheus_render.py:27-29 | on digits plus a unit the result is the digits' decimal value times 1, 60, 3600, 86400 or 604800 |
| RangeParser.ParseRange | prometheus_render.py:18-29 | every rejection is the invalid-range failure carrying the offending input |
| RangeParser.DigitRun | prometheus_render.py:20 | the greedy `\d+`: the longest all-digit prefix, followed by a non-digit or the end |
| RangeParser.FormattedRangeRoundTrip | prometheus_render.py:27-29 | writing `n` in decimal and appending a unit parses back to `n` units in seconds |
| RangeParser.RangeExamplesAccepted | prometheus_render.py:27-29 | `24h` is 86400 s, `7d` is 604800 s and `30m` is 1800 s |
| RangeParser.RangeExamplesRejected | prometheus_render.py:20-26 | `abc`, `24`, `1.5h`, `-5h`, `5hh` and the empty string are rejected |
| RangeParser.RangeExampleMonth | prometheus_render.py:27-29 | `30d` is 2592000 s |
| Text.LessTransitive | prometheus_render.py:35 | Python's string order used by `sorted` is transitive |
| Text.LessTotal | prometheus_render.py:35 | any two different keys are ordered one way or the other, so sorting by key is well defined |
| Text.Less | prometheus_render.py:35 | Python's `<` on `str`, the order `sorted` uses on the keys; its meaning is stated by `Text.LessFirstDifference` |
| Text.LessFirstDifference | prometheus_render.py:35 | `Less(a, b)` holds iff `a` is a proper prefix of `b`, or `a` has the smaller code point at the first position where they differ |
| Text.DecimalValue | prometheus_render.py:27 | `int()` of a digit string; a leading zero does not change the value |
| Text.DecimalString | prometheus_render.py:115 | `str(n)` writes a canonical numeral: one or more digits, no leading zero unless it is "0" |
| Text.DecimalRoundTrip | prometheus_render.py:115 | reading back the decimal text of the step gives the step |
| Text.CanonicalRoundTrip | prometheus_render.py:115 | every decimal string without a leading zero is the text of its own value, so the step text is determined by the step |
| MetricLabels.Lookup | prometheus_render.py:36 | `dict.get`: a found value belongs to an entry of the key, and a miss means no entry has the key |
| MetricLabels.SortByKeySorted | prometheus_render.py:35 | sorting entries with distinct keys yields strictly ascending keys |
| MetricLabels.SortByKey | prometheus_render.py:35 | `sorted(metric.items())` keeps every entry exactly once: the result is a permutation of the input |
| MetricLabels.SortedByKeyUnique | prometheus_render.py:35 | two strictly key-sorted lists with the same entries are equal, so the sorted order is unique |
| MetricLabels.LabelEntries | prometheus_render.py:34-35 | the label's entries are exactly the entries whose key is not `__name__`, `job` or `instance`, each once, in strictly ascending key order |
| MetricLabels.DropReserved | prometheus_render.py:34-35 | the `if k not in exclude` filter keeps exactly the entries whose key is not `__name__`, `job` or `instance` |
| MetricLabels.IsReserved | prometheus_render.py:34 | the `exclude` set: a key is reserved iff it is `__name__`, `job` or `instance` |
| MetricLabels.Part | prometheus_render.py:35 | one `f"{k}={v}"` part of the label; its inverse is stated by `MetricLabels.PartRoundTrip` |
| MetricLabels.Parts | prometheus_render.py:35 | the comprehension's parts: one per label entry, in the same order, the i-th being the `key=value` text of the i-th entry |
| MetricLabels.PartRoundTrip | prometheus_render.py:35 | for a key without '=' (as every label name is), splitting a part at its first '=' gives back the key and the value |
| Text.Join | prometheus_render.py:36 | `", ".join(parts)`; `Text.JoinContainsPart` states that nothing is lost |
| Text.JoinContainsPart | prometheus_render.py:36 | every part occurs in the joined label |
| Text.SplitAtFirst | prometheus_render.py:35 | the inverse used for parts: the text before the first separator, which holds no separator, and the text after it glue back to the input; no split means no separator |
| MetricLabels.MetricLabel | prometheus_render.py:32-36 | with a non-reserved key the label is the `key=value` parts joined by ", "; with none it is the `__name__` value, or "value" |
| MetricLabels.LabelFromSpecification | prometheus_render.py:35-36 | any strictly key-sorted non-empty list holding exactly the non-reserved entries is what the label lists |
| MetricLabels.LabelIndependentOfOrder | prometheus_render.py:35-36 | two label sets with the same entries in any insertion order give the same label |
| MetricLabels.LabelFallback | prometheus_render.py:36 | when every key is reserved the label is the `__name__` value of the set, or "value" when it has no `__name__` |
| MetricLabels.LabelExampleSingleTag | prometheus_render.py:32-36 | `{__name__: cpu, job: node, instance: a, mode: idle}`, listed in any order, gives `mode=idle` |
| MetricLabels.LabelExampleNameFallback | prometheus_render.py:36 | `{__name__: cpu, job: node, instance: a}`, listed in any order, gives `cpu` |
| MetricLabels.LabelExampleKeyOrder | prometheus_render.py:35-36 | `{__name__: x, job: j, a: 2, b: 1}`, listed in any order, gives `a=2, b=1` (key order, not value order) |
| QueryResponse.Classify | prometheus_render.py:135-145 | a non-"success" status fails with the body's `error` or "unknown"; success with no result fails naming the query; only a non-empty successful result proceeds, unchanged |
| QueryResponse.Succeeded | prometheus_render.py:135 | the answer's `status` field is present and equals "success"; a missing field or any other value is not success |
| QueryResponse.PrimarySeries | prometheus_render.py:118-145 | a transport failure of the primary query is fatal with its cause; otherwise the answer is classified |
| QueryResponse.FailureMessagesQuoteDetail | prometheus_render.py:135-145 | the error line contains the endpoint's error text, and the no-data line contains the query |
| Diagnostics.Message | prometheus_render.py:130-145 | every fatal diagnostic line quotes the failure's detail (input, cause, reason or query) |
| Diagnostics.ExitStatus | prometheus_render.py:140 | every fatal condition exits with a non-zero status |
| Markers.EventOf | prometheus_render.py:187-188 | a series' event is at its first sample's instant, and its version is the series' `version` tag, or "" when the series has none |
| Markers.Extract | prometheus_render.py:183-189 | the events are exactly the events of the series that have samples, and there are no more events than series; when every series has samples, event i is the event of series i |
| Markers.ExtractOne | prometheus_render.py:185-189 | one series gives its event when it has samples and nothing otherwise; with `Markers.ExtractAppend` this fixes the result for any list |
| Markers.ExtractAppend | prometheus_render.py:184-189 | extraction goes series by series: the events of a concatenation are the concatenated events |
| Markers.SortByTimeSorted | prometheus_render.py:190 | the sorted events are in ascending order of instant |
| Markers.SortByTime | prometheus_render.py:190 | `events.sort(...)` keeps every event exactly once: the result is a permutation of the input |
| Markers.SortByTimeStable | prometheus_render.py:190 | the sort is stable: at every instant the events keep their input order |
| Markers.StableSortUnique | prometheus_render.py:190 | two sorted sequences that agree at every instant are equal, so sorted plus stable determines the result |
| Markers.MarkerEvents | prometheus_render.py:183-190 | the drawn markers are ascending by instant, a permutation of the extracted events, and stable |
| Markers.MarkerEventsUnique | prometheus_render.py:190 | any chronological, stable ordering of the extracted events is the marker list |
| Markers.MarkerOverlay | prometheus_render.py:167-196 | no or an empty marker query draws nothing; a failed request draws nothing and warns once; a non-"success" answer draws nothing without a warning; otherwise the sorted events are drawn |
| RenderPlan.DefaultStep | prometheus_render.py:115 | the automatic step is at least 1; it is 1 below 300 s, and otherwise it is the floor of range/300 |
| RenderPlan.DefaultStepPointCount | prometheus_render.py:115 | with the automatic step, a range of at least 300 s holds between 300 and 600 steps |
| RenderPlan.ResolveStep | prometheus_render.py:115 | a given non-empty step is used as typed; otherwise the step is the canonical decimal text of the automatic step |
| RenderPlan.TickFormat | prometheus_render.py:198 | clock-time ticks iff the range is at most 86400 s |
| RenderPlan.TickFormatByUnit | prometheus_render.py:198 | clock ticks up to 24 h, 1440 m or 1 d, and never for a week or more |
| RenderPlan.TickPattern | prometheus_render.py:198 | clock ticks are written `%H:%M`, date ticks `%m-%d` |
| RenderPlan.TickPatternOfRange | prometheus_render.py:198 | the pattern chosen for a range is `%H:%M` for at most 86400 s and `%m-%d` otherwise |
| RenderPlan.Lines | prometheus_render.py:158-164 | one line per series in response order, captioned with its metric label and carrying its samples |
| RenderPlan.ShowLegend | prometheus_render.py:205 | the legend rule `len(results) > 1`; `RenderPlan.Render` states that a chart has a legend exactly when it has more than one line |
| RenderPlan.Render | prometheus_render.py:112-206 | the range is checked before any query; query failures are fatal; a chart exists iff the range is valid and the answer is successful and non-empty; it spans [now - range, now], has one line per series, a legend iff more than one line, a title iff one was given, the tick format of the range, and chronologically sorted markers |
| RenderPlan.ExitCode | prometheus_render.py:112-145 | the exit status is 0 exactly when a chart is produced |
| RenderPlan.RenderExampleDay | prometheus_render.py:198-206 | two series over `24h` give clock ticks and a legend |
| RenderPlan.RenderExampleMonth | prometheus_render.py:198-206 | one series over `30d` gives date ticks and no legend |

## Left out

- Argument parsing with argparse and the `--version` environment lookup (lines 40-110) only turn the command line into settings. Those settings are the fields of `Config`.
- The HTTP requests are left out: the URL normalisation (`rstrip("/")`), the 30-second timeout, `raise_for_status` and JSON decoding (lines 118-134, 168-180). These steps talk to a remote server through the `requests` package, which the model cannot see. Each request's outcome is a `Fetch` parameter: a transport failure with its cause, or a decoded `Response`.
- A primary body that is not JSON raises an uncaught exception at line 134. A *successful* primary answer without `data.result` raises an uncaught `KeyError` at line 142. An answer whose `status` is not "success" exits at lines 135-140 before line 142 is reached, and `QueryResponse.Classify` models that case. Neither crash is modelled, because a `Response` is always decoded and always carries its result list.
- Missing keys or unparseable timestamps inside the marker answer are caught as `KeyError` or `ValueError` and turned into a warning (lines 185-188, 195-196). The model covers them only through the failure case of the marker `Fetch`.
- The wall clock `time.time()` (line 113) is the `now` parameter. `datetime.fromtimestamp` (lines 160, 193) depends on the time zone and is left out.
- Timestamps and sample values go through `float(...)` in the program (lines 160-162, 187). The model keeps no binary fractions: an instant is a whole number of seconds (`int`), and a sample value is kept as the text the endpoint sent.
- Everything done through matplotlib (lines 148-156, 164, 194, 199-221) only draws pixels or writes the image file, which the model does not represent. This covers the style fallback warning, figure size, drawing, spines, grid, saving the PNG and closing the figure. So the failure to write the PNG, which also exits with status 1, is not modelled.
- Python's `\d` and `int()` also accept non-ASCII Unicode decimal digits (line 20). The model accepts only ASCII `'0'..'9'`.
- Tag values are taken to be strings, as the metrics endpoint sends them. The `f"{k}={v}"` formatting of other JSON types is not modelled.
- RangeParser.ParseRange: the interpreter's limits on huge counts are not modelled. `int(...)` at line 27 raises `ValueError` for a digit run longer than the interpreter's integer-string limit (4300 digits by default in current Pythons). The run then stops with a traceback and exit status 1. The model accepts every digit run, so `RangeParser.ParseRangeAcceptsExactly` and `RangeParser.FormattedRangeRoundTrip` hold only below that limit in the program.
- RenderPlan.Render: four uncaught crash paths are not modelled. A series of a successful, non-empty primary answer that lacks `values` or `metric` raises `KeyError` at line 160 or line 163. `end - range_seconds` at line 114 converts the count to a float and raises `OverflowError` for a range of about 2**1024 seconds or more. `float(v[1])` and `datetime.fromtimestamp(float(v[0]))` at lines 160-162 raise on a sample that is not a number or an instant out of the platform's range. Each ends the run with a traceback and exit status 1. In the model all of these inputs produce a chart: a `Series` always has both fields, and numbers are unbounded. So "a chart exists iff …" holds only for well-formed series, and for ranges and samples inside those limits.
- Markers.MarkerOverlay: instants that `datetime.fromtimestamp(ts)` at line 193 cannot convert are not modelled. There are two outcomes in the program. A NaN instant, or one whose local year is past 9999, raises `ValueError`. The handler at line 195 catches it, so the markers the loop at lines 192-194 has already drawn stay, the warning is printed, and the run goes on. An `OverflowError` or `OSError` is not caught, and the run crashes. The model takes every instant as drawable, so for a received "success" answer it draws every marker and never warns.
- RangeParser.ParseRangeAcceptsExactly: in the program, acceptance also needs the digit run to be within the integer-string limit named above. The model states the pattern alone.
- RangeParser.FormattedRangeRoundTrip: in the program, the round trip holds only for counts whose decimal text is within that limit.

=== FILE: diagnostics.dfy ===
/** The fatal conditions of a run. In the program each one prints a one-line
    diagnostic to standard error and exits with status 1; here each is a value
    that the entry point turns into that line and that status. */
module Diagnostics {
  import opened Text

  datatype Failure =
    | InvalidRange(text: string)      // the range argument is not digits plus a unit letter
    | QueryTransport(cause: string)   // the HTTP request itself failed
    | QueryRejected(reason: string)   // the endpoint answered with a status other than "success"
    | NoData(query: string)           // the endpoint answered "success" with an empty result list

  /** The detail a failure reports: the offending text, cause, reason or query. */
  function Detail(f: Failure): string {
    match f
    case InvalidRange(t) => t
    case QueryTransport(c) => c
    case QueryRejected(r) => r
    case NoData(q) => q
  }

  /** The diagnostic line the program writes for a failure; it always quotes
      the failure's detail. */
  function Message(f: Failure): (line: string)
    ensures Contains(line, Detail(f))
  {
    match f
    case InvalidRange(t) =>
      var line := "Invalid range format: " + t + " (expected e.g. 1h, 24h, 7d)";
      assert line[22..22 + |t|] == t;
      line
    case QueryTransport(c) =>
      var line := "Error querying Prometheus: " + c;
      assert line[27..27 + |c|] == c;
      line
    case QueryRejected(r) =>
      var line := "Prometheus error: " + r;
      assert line[18..18 + |r|] == r;
      line
    case NoData(q) =>
      var line := "No data returned for query: " + q;
      assert line[28..28 + |q|] == q;
      line
  }

  /** Every fatal condition ends the process with a non-zero status (1). */
  function ExitStatus(f: Failure): (code: int)
    ensures code != 0
  {
    1
  }
}

=== FILE: markers.dfy ===
/** The event-marker overlay: from the marker query's answer, the first
    instant of every series that has samples, with its `version` tag, in
    chronological order. The sort is stable, as Python's `list.sort` is. */
module Markers {
  import opened Wrappers
  import opened MetricLabels
  import opened QueryResponse

  datatype Marker = Marker(time: int, version: string)

  /** The event of one series: its first sample's instant and its `version` tag, or "". */
  function EventOf(s: Series): (m: Marker)
    requires |s.values| > 0
    ensures m.time == s.values[0].time
    ensures ("version", m.version) in s.metric
            || (m.version == "" && forall e :: e in s.metric ==> e.0 != "version")
  {
    Marker(s.values[0].time, Lookup(s.metric, "version").GetOr(""))
  }

  /** One event per series with samples, in response order; series without samples are skipped. */
  function Extract(results: seq<Series>): (events: seq<Marker>)
    ensures |events| <= |results|
    ensures forall m :: m in events <==> exists s :: s in results && |s.values| > 0 && m == EventOf(s)
    ensures (forall i :: 0 <= i < |results| ==> |results[i].values| > 0) ==>
              |events| == |results| && forall i :: 0 <= i < |results| ==> events[i] == EventOf(results[i])
    decreases |results|
  {
    if |results| == 0 then []
    else
      var rest := Extract(results[1..]);
      assert results == [results[0]] + results[1..];
      if |results[0].values| == 0 then rest else [EventOf(results[0])] + rest
  }

  /** Extraction works series by series: it distributes over concatenation,
      so together with its value on one series it is fully determined. */
  lemma {:induction false} ExtractAppend(a: seq<Series>, b: seq<Series>)
    ensures Extract(a + b) == Extract(a) + Extract(b)
    decreases |a|
  {
    if |a| > 0 {
      assert (a + b)[1..] == a[1..] + b;
      ExtractAppend(a[1..], b);
    } else {
      assert a + b == b;
    }
  }

  /** A single series yields its event when it has samples, and nothing otherwise. */
  lemma ExtractOne(s: Series)
    ensures Extract([s]) == if |s.values| > 0 then [EventOf(s)] else []
  {
    assert [s][1..] == [];
  }

  // ---------------------------------------------------------------------
  // Stable sort by instant (`events.sort(key=lambda e: e[0])`)

  predicate SortedByTime(s: seq<Marker>) {
    forall i, j :: 0 <= i < j < |s| ==> s[i].time <= s[j].time
  }

  /** The events at one instant, in their order in `s`. A sort is stable
      exactly when it keeps every such subsequence unchanged. */
  function AtTime(s: seq<Marker>, t: int): seq<Marker>
    decreases |s|
  {
    if |s| == 0 then [] else (if s[0].time == t then [s[0]] else []) + AtTime(s[1..], t)
  }

  lemma {:induction false} AtTimeMembers(s: seq<Marker>, t: int, x: Marker)
    ensures x in AtTime(s, t) <==> x in s && x.time == t
    decreases |s|
  {
    if |s| > 0 {
      AtTimeMembers(s[1..], t, x);
      assert s == [s[0]] + s[1..];
    }
  }

  /** Places `m` before the first element that is not earlier than it. */
  function InsertByTime(m: Marker, s: seq<Marker>): (r: seq<Marker>)
    ensures multiset(r) == multiset(s) + multiset{m}
    decreases |s|
  {
    if |s| == 0 || m.time <= s[0].time then [m] + s
    else
      assert s == [s[0]] + s[1..];
      [s[0]] + InsertByTime(m, s[1..])
  }

  function SortByTime(s: seq<Marker>): (r: seq<Marker>)
    ensures multiset(r) == multiset(s)
    decreases |s|
  {
    if |s| == 0 then []
    else
      assert s == [s[0]] + s[1..];
      InsertByTime(s[0], SortByTime(s[1..]))
  }

  lemma ConsSortedByTime(x: Marker, t: seq<Marker>)
    requires SortedByTime(t)
    requires forall y :: y in t ==> x.time <= y.time
    ensures SortedByTime([x] + t)
  {
    var r := [x] + t;
    forall i, j | 0 <= i < j < |r|
      ensures r[i].time <= r[j].time
    {
      assert r[j] == t[j - 1];
      if i == 0 {
        assert r[j] in t;
      } else {
        assert r[i] == t[i - 1];
      }
    }
  }

  lemma {:induction false} InsertByTimeSorted(m: Marker, s: seq<Marker>)
    requires SortedByTime(s)
    ensures SortedByTime(InsertByTime(m, s))
    decreases |s|
  {
    if |s| == 0 {
      assert InsertByTime(m, s) == [m];
    } else if m.time <= s[0].time {
      forall y | y in s
        ensures m.time <= y.time
      {
        var j :| 0 <= j < |s| && s[j] == y;
      }
      ConsSortedByTime(m, s);
    } else {
      var t := InsertByTime(m, s[1..]);
      assert SortedByTime(s[1..]) by {
        forall i, j | 0 <= i < j < |s[1..]|
          ensures s[1..][i].time <= s[1..][j].time
        {
          assert s[1..][i] == s[i + 1] && s[1..][j] == s[j + 1];
        }
      }
      InsertByTimeSorted(m, s[1..]);
      forall y | y in t
        ensures s[0].time <= y.time
      {
        assert y in multiset(s[1..]) + multiset{m};
        if y != m {
          assert y in s[1..];
          var k :| 0 <= k < |s[1..]| && s[1..][k] == y;
          assert s[k + 1] == y;
        }
      }
      ConsSortedByTime(s[0], t);
    }
  }

  lemma AtTimeCons(x: Marker, s: seq<Marker>, t: int)
    ensures AtTime([x] + s, t) == (if x.time == t then [x] else []) + AtTime(s, t)
  {
    assert ([x] + s)[1..] == s;
  }

  /** Everything skipped before `m` is strictly earlier, so `m` comes first
      among the events at its own instant. */
  lemma {:induction false} InsertByTimeAtTime(m: Marker, s: seq<Marker>, t: int)
    ensures AtTime(InsertByTime(m, s), t) == (if m.time == t then [m] else []) + AtTime(s, t)
    decreases |s|
  {
    if |s| == 0 || m.time <= s[0].time {
      AtTimeCons(m, s, t);
    } else {
      var rest := InsertByTime(m, s[1..]);
      var tail := AtTime(s[1..], t);
      var pm: seq<Marker> := if m.time == t then [m] else [];
      var ps: seq<Marker> := if s[0].time == t then [s[0]] else [];
      assert InsertByTime(m, s) == [s[0]] + rest;
      InsertByTimeAtTime(m, s[1..], t);
      AtTimeCons(s[0], rest, t);
      assert AtTime(InsertByTime(m, s), t) == ps + (pm + tail);
      assert AtTime(s, t) == ps + tail;
      // s[0] is strictly earlier than m, so at most one of them is at instant t
      assert ps == [] || pm == [];
      assert ps + (pm + tail) == pm + (ps + tail);
    }
  }

  lemma {:induction false} SortByTimeSorted(s: seq<Marker>)
    ensures SortedByTime(SortByTime(s))
    decreases |s|
  {
    if |s| > 0 {
      SortByTimeSorted(s[1..]);
      InsertByTimeSorted(s[0], SortByTime(s[1..]));
    }
  }

  /** The sort is stable: events at the same instant keep their input order. */
  lemma {:induction false} SortByTimeStable(s: seq<Marker>, t: int)
    ensures AtTime(SortByTime(s), t) == AtTime(s, t)
    decreases |s|
  {
    if |s| > 0 {
      SortByTimeStable(s[1..], t);
      InsertByTimeAtTime(s[0], SortByTime(s[1..]), t);
    }
  }

  lemma HeadAtItsTime(s: seq<Marker>)
    requires |s| > 0
    ensures AtTime(s, s[0].time) == [s[0]] + AtTime(s[1..], s[0].time)
  {
  }

  /** Sortedness plus stability pin the result down: two sorted sequences
      that agree at every instant are equal. */
  lemma {:induction false} StableSortUnique(a: seq<Marker>, b: seq<Marker>)
    requires SortedByTime(a) && SortedByTime(b)
    requires forall t :: AtTime(a, t) == AtTime(b, t)
    ensures a == b
    decreases |a|
  {
    if |a| == 0 {
      if |b| > 0 {
        HeadAtItsTime(b);
      }
    } else if |b| == 0 {
      HeadAtItsTime(a);
    } else {
      HeadAtItsTime(a);
      HeadAtItsTime(b);
      var x := AtTime(b, a[0].time)[0];
      AtTimeMembers(b, a[0].time, x);
      var y := AtTime(a, b[0].time)[0];
      AtTimeMembers(a, b[0].time, y);
      assert a[0].time == b[0].time;
      assert a[0] == b[0];
      forall t
        ensures AtTime(a[1..], t) == AtTime(b[1..], t)
      {
        var pre: seq<Marker> := if a[0].time == t then [a[0]] else [];
        assert AtTime(a, t) == pre + AtTime(a[1..], t);
        assert AtTime(b, t) == pre + AtTime(b[1..], t);
        assert (pre + AtTime(a[1..], t))[|pre|..] == AtTime(a[1..], t);
        assert (pre + AtTime(b[1..], t))[|pre|..] == AtTime(b[1..], t);
      }
      StableSortUnique(a[1..], b[1..]);
      assert a == [a[0]] + a[1..] && b == [b[0]] + b[1..];
    }
  }

  /** The markers drawn for a successful answer: the extracted events in
      ascending order of instant, a permutation of them, stable among equal
      instants. */
  function MarkerEvents(results: seq<Series>): (events: seq<Marker>)
    ensures SortedByTime(events)
    ensures multiset(events) == multiset(Extract(results))
    ensures forall t :: AtTime(events, t) == AtTime(Extract(results), t)
  {
    var raw := Extract(results);
    SortByTimeSorted(raw);
    forall t
      ensures AtTime(SortByTime(raw), t) == AtTime(raw, t)
    {
      SortByTimeStable(raw, t);
    }
    SortByTime(raw)
  }

  /** The marker list is the only ordering of the events that is both
      chronological and stable. */
  lemma MarkerEventsUnique(results: seq<Series>, other: seq<Marker>)
    requires SortedByTime(other)
    requires forall t :: AtTime(other, t) == AtTime(Extract(results), t)
    ensures other == MarkerEvents(results)
  {
    StableSortUnique(other, MarkerEvents(results));
  }

  /** The overlay and the warnings it adds. */
  datatype Overlay = Overlay(markers: seq<Marker>, warnings: seq<string>)

  /** Marker handling in `main`: with no (or an empty) marker query nothing is
      drawn; a failed request gives a warning and no markers; an answer whose
      status is not "success" gives no markers and no warning; otherwise the
      sorted events are drawn. */
  function MarkerOverlay(markerQuery: Option<string>, f: Fetch): (o: Overlay)
    ensures markerQuery.None? || markerQuery == Some("") ==> o == Overlay([], [])
    ensures o.warnings != [] ==> f.TransportError? && |o.warnings| == 1
    ensures o.markers != [] ==> f.Received? && Succeeded(f.body)
    ensures markerQuery.Some? && markerQuery.value != "" && f.Received? && Succeeded(f.body) ==>
              o == Overlay(MarkerEvents(f.body.result), [])
    ensures markerQuery.Some? && markerQuery.value != "" && f.TransportError? ==>
              o.markers == [] && o.warnings == ["Warning: could not fetch vlines query: " + f.cause]
  {
    if markerQuery.None? || markerQuery.value == "" then Overlay([], [])
    else
      match f
      case TransportError(c) => Overlay([], ["Warning: could not fetch vlines query: " + c])
      case Received(resp) =>
        if Succeeded(resp) then Overlay(MarkerEvents(resp.result), []) else Overlay([], [])
  }
}

=== FILE: metric_labels.dfy ===
/** `metric_label`: the display label of a series, derived from its label set.
    The reserved keys `__name__`, `job` and `instance` are dropped, the rest
    are written `key=value` in ascending key order and joined by ", "; with
    nothing left, the metric name (or the word "value") is used instead. */
module MetricLabels {
  import opened Wrappers
  import opened Text

  type Entry = (string, string)

  predicate DistinctKeys(s: seq<Entry>) {
    forall i, j :: 0 <= i < j < |s| ==> s[i].0 != s[j].0
  }

  /** A decoded JSON object of string tags: its entries in insertion order,
      no key twice. */
  type Labels = s: seq<Entry> | DistinctKeys(s) witness []

  const NameKey := "__name__"

  predicate IsReserved(k: string) {
    k == NameKey || k == "job" || k == "instance"
  }

  /** Python's `d.get(k)`. */
  function Lookup(m: seq<Entry>, k: string): (r: Option<string>)
    ensures r.Some? ==> (k, r.value) in m
    ensures r.None? ==> forall e :: e in m ==> e.0 != k
  {
    if |m| == 0 then None
    else if m[0].0 == k then Some(m[0].1)
    else Lookup(m[1..], k)
  }

  /** A key occurs at most once, so an entry in the set fixes its key's value. */
  lemma ValueOfKeyUnique(m: Labels, k: string, v: string, w: string)
    requires (k, v) in m && (k, w) in m
    ensures v == w
  {
    var i :| 0 <= i < |m| && m[i] == (k, v);
    var j :| 0 <= j < |m| && m[j] == (k, w);
    assert i == j;
  }

  // ---------------------------------------------------------------------
  // Sorting the entries by key (`sorted(metric.items())`)

  /** Keys strictly ascending in Python's string order. */
  predicate SortedByKey(s: seq<Entry>) {
    forall i, j :: 0 <= i < j < |s| ==> Less(s[i].0, s[j].0)
  }

  function InsertByKey(e: Entry, s: seq<Entry>): (r: seq<Entry>)
    ensures multiset(r) == multiset(s) + multiset{e}
    decreases |s|
  {
    if |s| == 0 || Less(e.0, s[0].0) then [e] + s
    else
      assert s == [s[0]] + s[1..];
      [s[0]] + InsertByKey(e, s[1..])
  }

  /** Every entry of `s` has a key above `k`. */
  predicate KeysAbove(k: string, s: seq<Entry>) {
    forall x :: x in s ==> Less(k, x.0)
  }

  lemma ConsSorted(x: Entry, t: seq<Entry>)
    requires SortedByKey(t) && KeysAbove(x.0, t)
    ensures SortedByKey([x] + t)
  {
    var r := [x] + t;
    forall i, j | 0 <= i < j < |r|
      ensures Less(r[i].0, r[j].0)
    {
      if i == 0 {
        assert r[j] == t[j - 1];
        assert r[j] in t;
      } else {
        assert r[i] == t[i - 1] && r[j] == t[j - 1];
      }
    }
  }

  /** Inserting an entry with a new key keeps the keys strictly ascending. */
  lemma {:induction false} InsertByKeySorted(e: Entry, s: seq<Entry>)
    requires SortedByKey(s)
    requires forall x :: x in s ==> x.0 != e.0
    ensures SortedByKey(InsertByKey(e, s))
    decreases |s|
  {
    if |s| == 0 {
      assert InsertByKey(e, s) == [e];
    } else if Less(e.0, s[0].0) {
      forall x | x in s
        ensures Less(e.0, x.0)
      {
        var j :| 0 <= j < |s| && s[j] == x;
        if j > 0 {
          LessTransitive(e.0, s[0].0, s[j].0);
        }
      }
      ConsSorted(e, s);
    } else {
      var t := InsertByKey(e, s[1..]);
      assert s == [s[0]] + s[1..];
      assert SortedByKey(s[1..]) by {
        forall i, j | 0 <= i < j < |s[1..]|
          ensures Less(s[1..][i].0, s[1..][j].0)
        {
          assert s[1..][i] == s[i + 1] && s[1..][j] == s[j + 1];
        }
      }
      InsertByKeySorted(e, s[1..]);
      LessTotal(e.0, s[0].0);
      forall x | x in t
        ensures Less(s[0].0, x.0)
      {
        assert x in multiset(s[1..]) + multiset{e};
        if x != e {
          assert x in s[1..];
          var k :| 0 <= k < |s[1..]| && s[1..][k] == x;
          assert s[k + 1] == x;
        }
      }
      ConsSorted(s[0], t);
    }
  }

  /** Insertion sort by key (`sorted(metric.items())`). */
  function SortByKey(s: seq<Entry>): (r: seq<Entry>)
    ensures multiset(r) == multiset(s)
    decreases |s|
  {
    if |s| == 0 then []
    else
      assert s == [s[0]] + s[1..];
      InsertByKey(s[0], SortByKey(s[1..]))
  }

  /** With distinct keys the sort yields strictly ascending keys. */
  lemma {:induction false} SortByKeySorted(s: seq<Entry>)
    requires DistinctKeys(s)
    ensures SortedByKey(SortByKey(s))
    decreases |s|
  {
    if |s| > 0 {
      var t := SortByKey(s[1..]);
      assert s == [s[0]] + s[1..];
      SortByKeySorted(s[1..]);
      forall x | x in t
        ensures x.0 != s[0].0
      {
        assert x in multiset(s[1..]);
        var k :| 0 <= k < |s[1..]| && s[1..][k] == x;
        assert s[k + 1] == x;
      }
      InsertByKeySorted(s[0], t);
    }
  }

  /** The comprehension's `if k not in exclude`. */
  function DropReserved(s: seq<Entry>): (r: seq<Entry>)
    ensures forall e :: e in r <==> e in s && !IsReserved(e.0)
    decreases |s|
  {
    if |s| == 0 then []
    else
      assert s == [s[0]] + s[1..];
      (if IsReserved(s[0].0) then [] else [s[0]]) + DropReserved(s[1..])
  }

  /** Dropping entries keeps the remaining keys in order. */
  lemma {:induction false} DropReservedSorted(s: seq<Entry>)
    requires SortedByKey(s)
    ensures SortedByKey(DropReserved(s))
    decreases |s|
  {
    if |s| > 0 {
      var t := DropReserved(s[1..]);
      assert SortedByKey(s[1..]) by {
        forall i, j | 0 <= i < j < |s[1..]|
          ensures Less(s[1..][i].0, s[1..][j].0)
        {
          assert s[1..][i] == s[i + 1] && s[1..][j] == s[j + 1];
        }
      }
      DropReservedSorted(s[1..]);
      if !IsReserved(s[0].0) {
        forall x | x in t
          ensures Less(s[0].0, x.0)
        {
          var k :| 0 <= k < |s[1..]| && s[1..][k] == x;
          assert s[k + 1] == x;
        }
        ConsSorted(s[0], t);
      }
    }
  }

  /** The entries that make up the label: exactly the non-reserved entries of
      the label set, each once, in strictly ascending key order. */
  function LabelEntries(metric: Labels): (es: seq<Entry>)
    ensures SortedByKey(es)
    ensures forall e :: e in es <==> e in metric && !IsReserved(e.0)
    ensures forall i :: 0 <= i < |es| ==> !IsReserved(es[i].0)
  {
    var sorted := SortByKey(metric);
    SortByKeySorted(metric);
    DropReservedSorted(sorted);
    assert forall e :: e in sorted <==> e in metric by {
      forall e
        ensures e in sorted <==> e in metric
      {
        assert e in sorted <==> e in multiset(sorted);
      }
    }
    DropReserved(sorted)
  }

  /** `f"{k}={v}"`. */
  function Part(e: Entry): string {
    e.0 + "=" + e.1
  }

  /** Label names never contain '=', so a part splits back at its first '='
      into the entry's key and value. */
  lemma PartRoundTrip(e: Entry)
    requires '=' !in e.0
    ensures SplitAtFirst(Part(e), '=') == Some(e)
  {
    SplitAfterPrefix(e.0, '=', e.1);
    assert Part(e) == e.0 + ['='] + e.1;
  }

  function Parts(es: seq<Entry>): (ps: seq<string>)
    ensures |ps| == |es|
    ensures forall i :: 0 <= i < |es| ==> ps[i] == Part(es[i])
  {
    if |es| == 0 then [] else [Part(es[0])] + Parts(es[1..])
  }

  /** The label of a series. */
  function MetricLabel(metric: Labels): (name: string)
    ensures (forall e :: e in metric ==> IsReserved(e.0)) ==>
              name == Lookup(metric, NameKey).GetOr("value")
    ensures (exists e :: e in metric && !IsReserved(e.0)) ==>
              name == Join(Parts(LabelEntries(metric)), ", ")
  {
    var es := LabelEntries(metric);
    if |es| > 0 then Join(Parts(es), ", ") else Lookup(metric, NameKey).GetOr("value")
  }

  // ---------------------------------------------------------------------
  // Properties

  lemma NonEmptyHasMember(s: seq<Entry>)
    requires |s| > 0
    ensures exists e :: e in s
  {
    assert s[0] in s;
  }

  /** Two strictly key-sorted sequences with the same entries are equal. */
  lemma {:induction false} SortedByKeyUnique(a: seq<Entry>, b: seq<Entry>)
    requires SortedByKey(a) && SortedByKey(b)
    requires forall e :: e in a <==> e in b
    ensures a == b
    decreases |a|
  {
    if |a| == 0 {
      if |b| > 0 {
        NonEmptyHasMember(b);
      }
    } else {
      assert a[0] in b;
      assert |b| > 0;
      if a[0] != b[0] {
        assert b[0] in a;
        var i :| 0 <= i < |a| && a[i] == b[0];
        var j :| 0 <= j < |b| && b[j] == a[0];
        assert Less(a[0].0, b[0].0);
        assert Less(b[0].0, a[0].0);
        LessAsymmetric(a[0].0, b[0].0);
        assert false;
      }
      forall e
        ensures e in a[1..] <==> e in b[1..]
      {
        if e in a[1..] {
          var i :| 1 <= i < |a| && a[i] == e;
          LessIrreflexive(a[0].0);
          assert e != a[0];
          assert e in b;
        }
        if e in b[1..] {
          var i :| 1 <= i < |b| && b[i] == e;
          LessIrreflexive(b[0].0);
          assert e != b[0];
          assert e in a;
        }
      }
      SortedByKeyUnique(a[1..], b[1..]);
      assert a == [a[0]] + a[1..] && b == [b[0]] + b[1..];
    }
  }

  /** The label depends only on the label set, not on the order in which the
      response listed its entries. */
  lemma LabelIndependentOfOrder(m1: Labels, m2: Labels)
    requires forall e :: e in m1 <==> e in m2
    ensures MetricLabel(m1) == MetricLabel(m2)
  {
    SortedByKeyUnique(LabelEntries(m1), LabelEntries(m2));
    var n1 := Lookup(m1, NameKey);
    var n2 := Lookup(m2, NameKey);
    if n1.Some? {
      ValueOfKeyUnique(m2, NameKey, n1.value, n2.value);
    }
  }

  /** With no tag left after dropping the reserved ones, the label is the
      metric name, or "value" when the series has none. */
  lemma LabelFallback(metric: Labels)
    requires forall e :: e in metric ==> IsReserved(e.0)
    ensures (NameKey, MetricLabel(metric)) in metric ||
            (MetricLabel(metric) == "value" && forall e :: e in metric ==> e.0 != NameKey)
  {
  }

  /** The label is fixed by its specification: any strictly key-sorted list
      holding exactly the non-reserved entries, when non-empty, is what the
      label lists. */
  lemma LabelFromSpecification(metric: Labels, es: seq<Entry>)
    requires SortedByKey(es) && |es| > 0
    requires forall e :: e in es <==> e in metric && !IsReserved(e.0)
    ensures MetricLabel(metric) == Join(Parts(es), ", ")
  {
    SortedByKeyUnique(LabelEntries(metric), es);
  }

  lemma JoinOneEntry(e: Entry)
    ensures Join(Parts([e]), ", ") == Part(e)
  {
    assert Parts([e]) == [Part(e)] + Parts([]);
  }

  lemma JoinTwoEntries(e: Entry, f: Entry)
    ensures Join(Parts([e, f]), ", ") == Part(e) + ", " + Part(f)
  {
    assert Parts([e, f]) == [Part(e)] + Parts([f]);
    assert Parts([f]) == [Part(f)] + Parts([]);
    assert Parts([e, f])[1..] == [Part(f)];
  }

  // ---------------------------------------------------------------------
  // Worked examples. Each label set is given by its entries, so each example
  // holds whatever order the response lists them in. The membership facts
  // sit in their own lemmas to keep each proof small.

  const CpuIdle: seq<Entry> := [("__name__", "cpu"), ("job", "node"), ("instance", "a"), ("mode", "idle")]
  const CpuOnly: seq<Entry> := [("__name__", "cpu"), ("job", "node"), ("instance", "a")]
  const TwoTags: seq<Entry> := [("__name__", "x"), ("job", "j"), ("a", "2"), ("b", "1")]

  lemma CpuIdleKept(m: Labels)
    requires forall e :: e in m <==> e in CpuIdle
    ensures forall e :: e in [("mode", "idle")] <==> e in m && !IsReserved(e.0)
    ensures Join(Parts([("mode", "idle")]), ", ") == "mode=idle"
  {
    assert !IsReserved("mode") by { assert "mode"[0] == 'm'; }
    JoinOneEntry(("mode", "idle"));
  }

  /** Worked example: of `{__name__: cpu, job: node, instance: a, mode: idle}`
      only the `mode` tag survives. */
  lemma LabelExampleSingleTag(m: Labels)
    requires forall e :: e in m <==> e in CpuIdle
    ensures MetricLabel(m) == "mode=idle"
  {
    CpuIdleKept(m);
    LabelFromSpecification(m, [("mode", "idle")]);
  }

  lemma CpuOnlyReserved(m: Labels)
    requires forall e :: e in m <==> e in CpuOnly
    ensures forall e :: e in m ==> IsReserved(e.0)
    ensures Lookup(m, NameKey) == Some("cpu")
  {
    assert (NameKey, "cpu") in m;
  }

  /** Worked example: every tag of `{__name__: cpu, job: node, instance: a}`
      is reserved, so the metric name is shown. */
  lemma LabelExampleNameFallback(m: Labels)
    requires forall e :: e in m <==> e in CpuOnly
    ensures MetricLabel(m) == "cpu"
  {
    CpuOnlyReserved(m);
  }

  lemma TwoTagsKept(m: Labels)
    requires forall e :: e in m <==> e in TwoTags
    ensures forall e :: e in [("a", "2"), ("b", "1")] <==> e in m && !IsReserved(e.0)
    ensures SortedByKey([("a", "2"), ("b", "1")])
    ensures Join(Parts([("a", "2"), ("b", "1")]), ", ") == "a=2, b=1"
  {
    assert !IsReserved("a") && !IsReserved("b");
    assert Less("a", "b");
    JoinTwoEntries(("a", "2"), ("b", "1"));
  }

  /** Worked example: `{__name__: x, job: j, a: 2, b: 1}`, listed in any
      order, shows its tags in key order (not value order). */
  lemma LabelExampleKeyOrder(m: Labels)
    requires forall e :: e in m <==> e in TwoTags
    ensures MetricLabel(m) == "a=2, b=1"
  {
    TwoTagsKept(m);
    LabelFromSpecification(m, [("a", "2"), ("b", "1")]);
  }
}

=== FILE: query_response.dfy ===
/** The decoded answer of the metrics endpoint's `query_range` API, and the
    checks `main` applies to the primary query's answer before plotting. */
module QueryResponse {
  import opened Wrappers
  import opened Text
  import opened MetricLabels
  import opened Diagnostics

  /** One `[timestamp, valueString]` pair; the instant is a whole number of
      seconds and the value stays text. */
  datatype Sample = Sample(time: int, value: string)

  /** One entry of `data.result`: its label set and its samples in response order. */
  datatype Series = Series(metric: Labels, values: seq<Sample>)

  /** The JSON envelope; `status` and `error` may be missing from it. */
  datatype Response = Response(status: Option<string>, error: Option<string>, result: seq<Series>)

  /** What one HTTP request produced: a transport failure (connection error,
      timeout, non-2xx status) with its cause, or a decoded body. */
  datatype Fetch = TransportError(cause: string) | Received(body: Response)

  predicate Succeeded(resp: Response) {
    resp.status == Some("success")
  }

  /** The checks on the primary answer: a status other than "success" is an
      error carrying the body's `error` field (or "unknown"); an empty result
      list is a no-data error naming the query; only a non-empty successful
      result proceeds, unchanged. */
  function Classify(query: string, resp: Response): (r: Result<seq<Series>, Failure>)
    ensures r.Success? <==> Succeeded(resp) && |resp.result| > 0
    ensures r.Success? ==> r.value == resp.result
    ensures !Succeeded(resp) ==> r == Failure(QueryRejected(resp.error.GetOr("unknown")))
    ensures Succeeded(resp) && |resp.result| == 0 ==> r == Failure(NoData(query))
  {
    if resp.status != Some("success") then Failure(QueryRejected(resp.error.GetOr("unknown")))
    else if |resp.result| == 0 then Failure(NoData(query))
    else Success(resp.result)
  }

  /** The primary query: a transport failure is fatal, otherwise the body is classified. */
  function PrimarySeries(query: string, f: Fetch): (r: Result<seq<Series>, Failure>)
    ensures f.TransportError? ==> r == Failure(QueryTransport(f.cause))
    ensures r.Success? ==> f.Received? && Succeeded(f.body) && r.value == f.body.result && |r.value| > 0
    ensures f.Received? ==> r == Classify(query, f.body)
  {
    match f
    case TransportError(c) => Failure(QueryTransport(c))
    case Received(resp) => Classify(query, resp)
  }

  /** The error answer's text reaches the diagnostic line, and an empty
      answer's diagnostic names the query. */
  lemma FailureMessagesQuoteDetail(query: string, resp: Response)
    ensures !Succeeded(resp) && resp.error.Some? ==>
              Contains(Message(Classify(query, resp).error), resp.error.value)
    ensures Succeeded(resp) && |resp.result| == 0 ==>
              Contains(Message(Classify(query, resp).error), query)
  {
  }
}

=== FILE: range_parser.dfy ===
/** `parse_range`: a duration such as "24h" or "7d" becomes a number of
    seconds. The accepted language is the full match of `(\d+)([smhdw])`:
    one or more decimal digits followed by exactly one unit letter. */
module RangeParser {
  import opened Wrappers
  import opened Text
  import opened Diagnostics

  /** The unit table: seconds per minute, hour, day and week. */
  function UnitSeconds(u: char): (r: Option<nat>)
    ensures r.Some? <==> u in "smhdw"
    ensures r.Some? ==> r.value >= 1
  {
    match u
    case 's' => Some(1)
    case 'm' => Some(60)
    case 'h' => Some(3600)
    case 'd' => Some(86400)
    case 'w' => Some(604800)
    case _ => None
  }

  /** The regular language `\d+[smhdw]`, read off the pattern: a non-empty
      run of digits and then one unit letter, with nothing after it. */
  predicate MatchesRangeSyntax(s: string) {
    |s| >= 2 && AllDigits(s[..|s| - 1]) && s[|s| - 1] in "smhdw"
  }

  /** Length of the longest run of digits at the start of `s` (the greedy `\d+`). */
  function DigitRun(s: string): (n: nat)
    ensures n <= |s|
    ensures AllDigits(s[..n])
    ensures n < |s| ==> !IsDigit(s[n])
    decreases |s|
  {
    if |s| == 0 || !IsDigit(s[0]) then 0
    else
      var n := 1 + DigitRun(s[1..]);
      assert s[..n] == [s[0]] + s[1..][..n - 1];
      n
  }

  /** Scans the digit run, then requires exactly one unit letter to end the
      input; the value is the digits' number times the unit's seconds. */
  function ParseRange(s: string): (r: Result<nat, Failure>)
    ensures r.Failure? ==> r.error == InvalidRange(s)
  {
    var n := DigitRun(s);
    if n == 0 || n + 1 != |s| then Failure(InvalidRange(s))
    else
      match UnitSeconds(s[n])
      case None => Failure(InvalidRange(s))
      case Some(k) => Success(DecimalValue(s[..n]) * k)
  }

  /** Each unit is a whole number of the next smaller one: a minute is 60
      seconds, an hour 60 minutes, a day 24 hours and a week 7 days. */
  lemma UnitsNest()
    ensures UnitSeconds('s') == Some(1)
    ensures UnitSeconds('m').value == 60 * UnitSeconds('s').value
    ensures UnitSeconds('h').value == 60 * UnitSeconds('m').value
    ensures UnitSeconds('d').value == 24 * UnitSeconds('h').value
    ensures UnitSeconds('w').value == 7 * UnitSeconds('d').value
  {
  }

  /** The parser accepts exactly the strings the pattern matches. */
  lemma ParseRangeAcceptsExactly(s: string)
    ensures ParseRange(s).Success? <==> MatchesRangeSyntax(s)
  {
    var n := DigitRun(s);
    if MatchesRangeSyntax(s) {
      DigitRunOfDigitsAndUnit(s[..|s| - 1], s[|s| - 1]);
      assert s == s[..|s| - 1] + [s[|s| - 1]];
    }
  }

  /** On digits followed by a unit, the greedy digit run stops exactly at the unit. */
  lemma {:induction false} DigitRunOfDigitsAndUnit(digits: string, u: char)
    requires AllDigits(digits) && !IsDigit(u)
    ensures DigitRun(digits + [u]) == |digits|
    decreases |digits|
  {
    if |digits| > 0 {
      assert (digits + [u])[1..] == digits[1..] + [u];
      DigitRunOfDigitsAndUnit(digits[1..], u);
    }
  }

  /** The value on acceptance: the digits' number times the unit's seconds. */
  lemma ParseRangeValue(digits: string, u: char)
    requires |digits| >= 1 && AllDigits(digits) && UnitSeconds(u).Some?
    ensures ParseRange(digits + [u]) == Success(DecimalValue(digits) * UnitSeconds(u).value)
  {
    DigitRunOfDigitsAndUnit(digits, u);
    assert (digits + [u])[..|digits|] == digits;
  }

  /** Writing a count with `str(n)` and appending a unit letter gives a range
      string that parses back to `n` units. */
  lemma FormattedRangeRoundTrip(n: nat, u: char)
    requires UnitSeconds(u).Some?
    ensures ParseRange(DecimalString(n) + [u]) == Success(n * UnitSeconds(u).value)
  {
    ParseRangeValue(DecimalString(n), u);
    DecimalRoundTrip(n);
  }

  /** Thirty days, the month-long range of the chart examples. */
  lemma RangeExampleMonth()
    ensures ParseRange("30d") == Success(2592000)
  {
    ParseRangeValue("30", 'd');
    assert "30" + ['d'] == "30d";
    assert DecimalValue("30") == 30 by { assert "30"[..1] == "3"; assert "3"[..0] == ""; }
  }

  /** Worked examples: "24h", "7d" and "30m" are one day, one week and half an hour. */
  lemma RangeExamplesAccepted()
    ensures ParseRange("24h") == Success(86400)
    ensures ParseRange("7d") == Success(604800)
    ensures ParseRange("30m") == Success(1800)
  {
    ParseRangeValue("24", 'h');
    assert "24" + ['h'] == "24h";
    assert DecimalValue("24") == 24 by { assert "24"[..1] == "2"; assert "2"[..0] == ""; }
    ParseRangeValue("7", 'd');
    assert "7" + ['d'] == "7d";
    assert DecimalValue("7") == 7 by { assert "7"[..0] == ""; }
    ParseRangeValue("30", 'm');
    assert "30" + ['m'] == "30m";
    assert DecimalValue("30") == 30 by { assert "30"[..1] == "3"; assert "3"[..0] == ""; }
  }

  /** Worked examples: no digits, no unit, a decimal point, a sign, a second
      unit letter and the empty string are all rejected. */
  lemma RangeExamplesRejected()
    ensures ParseRange("abc").Failure? && ParseRange("24").Failure?
    ensures ParseRange("1.5h").Failure? && ParseRange("-5h").Failure?
    ensures ParseRange("5hh").Failure? && ParseRange("").Failure?
  {
    ParseRangeAcceptsExactly("abc");
    ParseRangeAcceptsExactly("24");
    ParseRangeAcceptsExactly("1.5h");
    assert !IsDigit("1.5h"[..3][1]);
    ParseRangeAcceptsExactly("-5h");
    assert !IsDigit("-5h"[..2][0]);
    ParseRangeAcceptsExactly("5hh");
    assert !IsDigit("5hh"[..2][1]);
    ParseRangeAcceptsExactly("");
  }
}

=== FILE: render_plan.dfy ===
/** The decisions `main` takes between the command line and the plotting
    library: the time window and step of the queries, the plotted lines and
    their labels, the marker overlay, the tick format, title and legend.
    Exiting on an error becomes a returned `Failure`. */
module RenderPlan {
  import opened Wrappers
  import opened Text
  import opened Diagnostics
  import opened RangeParser
  import opened MetricLabels
  import opened QueryResponse
  import opened Markers

  /** The options that shape the chart (URL, output path, size and style feed
      only the HTTP and drawing code). `step` and `markerQuery` are absent
      when not given on the command line. */
  datatype Config = Config(
    query: string,
    rangeText: string,
    title: string,
    step: Option<string>,
    markerQuery: Option<string>)

  /** Tick labels on the time axis: clock time, or month and day. */
  datatype DateFormat = HourMinute | MonthDay

  /** The `strftime` pattern of a tick format. */
  function TickPattern(f: DateFormat): (p: string)
    ensures f == HourMinute ==> p == "%H:%M"
    ensures f == MonthDay ==> p == "%m-%d"
  {
    match f
    case HourMinute => "%H:%M"
    case MonthDay => "%m-%d"
  }

  /** One plotted line: its legend caption and its samples in response order. */
  datatype Line = Line(caption: string, points: seq<Sample>)

  /** Everything the chart is drawn from. */
  datatype Chart = Chart(
    start: int,
    end: int,
    step: string,
    lines: seq<Line>,
    markers: seq<Marker>,
    format: DateFormat,
    title: Option<string>,
    legend: bool,
    warnings: seq<string>)

  const SecondsPerDay := 86400

  /** The automatic step: about 300 points over the range, never below one second. */
  function DefaultStep(rangeSeconds: nat): (step: nat)
    ensures step >= 1
    ensures rangeSeconds < 300 ==> step == 1
    ensures rangeSeconds >= 300 ==> 300 * step <= rangeSeconds < 300 * (step + 1)
  {
    if rangeSeconds / 300 < 1 then 1 else rangeSeconds / 300
  }

  /** With the automatic step a range of at least 300 s holds between 300
      and 600 steps ("~300 data points"). */
  lemma DefaultStepPointCount(rangeSeconds: nat)
    requires rangeSeconds >= 300
    ensures 300 * DefaultStep(rangeSeconds) <= rangeSeconds < 600 * DefaultStep(rangeSeconds)
  {
  }

  /** `args.step or str(max(1, range_seconds // 300))`: a given, non-empty
      step is passed through as typed; otherwise the automatic step is written
      in decimal. */
  function ResolveStep(given: Option<string>, rangeSeconds: nat): (step: string)
    ensures given.Some? && given.value != "" ==> step == given.value
    ensures given.None? || given.value == "" ==>
              Canonical(step) && DecimalValue(step) == DefaultStep(rangeSeconds)
  {
    if given.Some? && given.value != "" then given.value
    else
      DecimalRoundTrip(DefaultStep(rangeSeconds));
      DecimalString(DefaultStep(rangeSeconds))
  }

  /** Clock-time ticks for a range of at most one day, dates beyond it. */
  function TickFormat(rangeSeconds: nat): (f: DateFormat)
    ensures f == HourMinute <==> rangeSeconds <= SecondsPerDay
  {
    if rangeSeconds <= SecondsPerDay then HourMinute else MonthDay
  }

  /** The tick pattern chosen for a range, as the program writes it. */
  lemma TickPatternOfRange(rangeSeconds: nat)
    ensures TickPattern(TickFormat(rangeSeconds)) == if rangeSeconds <= SecondsPerDay then "%H:%M" else "%m-%d"
  {
  }

  /** How the tick rule reads in each unit of the range syntax: clock ticks up
      to 24 hours, 1440 minutes or 1 day, never for a week or more. */
  lemma TickFormatByUnit(n: nat)
    ensures TickFormat(n * 3600) == HourMinute <==> n <= 24
    ensures TickFormat(n * 60) == HourMinute <==> n <= 1440
    ensures TickFormat(n * 86400) == HourMinute <==> n <= 1
    ensures TickFormat(n * 604800) == HourMinute <==> n == 0
  {
  }

  /** The legend is drawn only when there is more than one line to tell apart. */
  function ShowLegend(lineCount: nat): bool {
    lineCount > 1
  }

  /** One line per series, in response order, labelled by `MetricLabel`. */
  function Lines(results: seq<Series>): (lines: seq<Line>)
    ensures |lines| == |results|
    ensures forall i :: 0 <= i < |results| ==>
              lines[i].caption == MetricLabel(results[i].metric) && lines[i].points == results[i].values
    decreases |results|
  {
    if |results| == 0 then [] else [Line(MetricLabel(results[0].metric), results[0].values)] + Lines(results[1..])
  }

  /** `main` without its I/O: `now` is the wall clock, `primary` what the
      primary query returned, `marker` what the marker query returned (looked
      at only when a marker query is configured). */
  function Render(cfg: Config, now: int, primary: Fetch, marker: Fetch): (r: Result<Chart, Failure>)
    // the range is checked before any query is sent
    ensures ParseRange(cfg.rangeText).Failure? ==> r == Failure(InvalidRange(cfg.rangeText))
    ensures ParseRange(cfg.rangeText).Success? && primary.TransportError? ==>
              r == Failure(QueryTransport(primary.cause))
    ensures ParseRange(cfg.rangeText).Success? && primary.Received? ==>
              (r.Failure? <==> Classify(cfg.query, primary.body).Failure?)
    ensures r.Failure? && ParseRange(cfg.rangeText).Success? && primary.Received? ==>
              r.error == Classify(cfg.query, primary.body).error
    // a chart is drawn exactly for a valid range and a non-empty successful answer
    ensures r.Success? <==>
              ParseRange(cfg.rangeText).Success? && primary.Received? &&
              Succeeded(primary.body) && |primary.body.result| > 0
    ensures r.Success? ==>
              var secs := ParseRange(cfg.rangeText).value;
              var c := r.value;
              && c.end == now && c.start == now - secs
              && c.step == ResolveStep(cfg.step, secs)
              && |c.lines| == |primary.body.result| >= 1
              && (c.legend <==> |c.lines| > 1)
              && (c.format == HourMinute <==> secs <= SecondsPerDay)
              && (c.title.Some? <==> cfg.title != "")
              && (c.title.Some? ==> c.title.value == cfg.title)
              && c.lines == Lines(primary.body.result)
              && c.markers == MarkerOverlay(cfg.markerQuery, marker).markers
              && c.warnings == MarkerOverlay(cfg.markerQuery, marker).warnings
              && SortedByTime(c.markers)
  {
    match ParseRange(cfg.rangeText)
    case Failure(e) => Failure(e)
    case Success(secs) =>
      match PrimarySeries(cfg.query, primary)
      case Failure(e) => Failure(e)
      case Success(results) =>
        var overlay := MarkerOverlay(cfg.markerQuery, marker);
        var lines := Lines(results);
        Success(Chart(
          start := now - secs,
          end := now,
          step := ResolveStep(cfg.step, secs),
          lines := lines,
          markers := overlay.markers,
          format := TickFormat(secs),
          title := if cfg.title == "" then None else Some(cfg.title),
          legend := ShowLegend(|lines|),
          warnings := overlay.warnings))
  }

  /** The process exit status of a run that stops after `Render`. */
  function ExitCode(r: Result<Chart, Failure>): (code: int)
    ensures code == 0 <==> r.Success?
  {
    match r
    case Success(_) => 0
    case Failure(f) => ExitStatus(f)
  }

  /** End to end: two series over 24 hours give clock ticks and a legend. */
  lemma RenderExampleDay(cfg: Config, now: int, primary: Fetch, marker: Fetch)
    requires cfg.rangeText == "24h"
    requires primary.Received? && Succeeded(primary.body) && |primary.body.result| == 2
    ensures Render(cfg, now, primary, marker).Success?
    ensures Render(cfg, now, primary, marker).value.format == HourMinute
    ensures Render(cfg, now, primary, marker).value.legend
  {
    RangeExamplesAccepted();
  }

  /** End to end: one series over 30 days gives date ticks and no legend. */
  lemma RenderExampleMonth(cfg: Config, now: int, primary: Fetch, marker: Fetch)
    requires cfg.rangeText == "30d"
    requires primary.Received? && Succeeded(primary.body) && |primary.body.result| == 1
    ensures Render(cfg, now, primary, marker).Success?
    ensures Render(cfg, now, primary, marker).value.format == MonthDay
    ensures !Render(cfg, now, primary, marker).value.legend
  {
    RangeExampleMonth();
  }
}

=== FILE: text.dfy ===
/** String helpers shared by the model: Python's ordering of `str` values,
    ASCII decimal digits, `str(n)` for naturals and `str.join`. */
module Text {
  import opened Wrappers

  /** Python's `<` on `str`: code points compared left to right, and a proper
      prefix sorts before the longer string. */
  predicate Less(a: string, b: string)
    decreases |a|
  {
    if |a| == 0 then |b| > 0
    else if |b| == 0 then false
    else a[0] < b[0] || (a[0] == b[0] && Less(a[1..], b[1..]))
  }

  lemma {:induction false} LessIrreflexive(a: string)
    ensures !Less(a, a)
    decreases |a|
  {
    if |a| > 0 {
      LessIrreflexive(a[1..]);
    }
  }

  lemma {:induction false} LessTransitive(a: string, b: string, c: string)
    requires Less(a, b) && Less(b, c)
    ensures Less(a, c)
    decreases |a|
  {
    if |a| > 0 && a[0] == b[0] && b[0] == c[0] {
      LessTransitive(a[1..], b[1..], c[1..]);
    }
  }

  /** Any two different strings are ordered one way or the other. */
  lemma {:induction false} LessTotal(a: string, b: string)
    requires a != b
    ensures Less(a, b) || Less(b, a)
    decreases |a|
  {
    if |a| > 0 && |b| > 0 && a[0] == b[0] {
      assert a == [a[0]] + a[1..] && b == [b[0]] + b[1..];
      LessTotal(a[1..], b[1..]);
    }
  }

  lemma LessAsymmetric(a: string, b: string)
    requires Less(a, b)
    ensures !Less(b, a)
  {
    if Less(b, a) {
      LessTransitive(a, b, a);
      LessIrreflexive(a);
    }
  }

  /** Python's comparison read directly: `a` is a proper prefix of `b`, or at
      the first position where the two differ `a` has the smaller code point. */
  predicate PrecedesAtFirstDifference(a: string, b: string) {
    (|a| < |b| && a == b[..|a|])
    || exists k :: 0 <= k < |a| && k < |b| && a[..k] == b[..k] && a[k] < b[k]
  }

  /** The recursive `Less` is exactly the first-difference order. */
  lemma {:induction false} LessFirstDifference(a: string, b: string)
    ensures Less(a, b) <==> PrecedesAtFirstDifference(a, b)
    decreases |a|
  {
    if |a| == 0 {
      assert b[..0] == a;
    } else if |b| == 0 {
    } else if a[0] < b[0] {
      assert a[..0] == b[..0];
    } else if a[0] > b[0] {
      forall k | 0 < k <= |a| && k <= |b|
        ensures a[..k] != b[..k]
      {
        assert a[..k][0] == a[0] && b[..k][0] == b[0];
      }
    } else {
      var a', b' := a[1..], b[1..];
      LessFirstDifference(a', b');
      assert a == [a[0]] + a' && b == [b[0]] + b';
      if |a| < |b| && a == b[..|a|] {
        assert a' == b[..|a|][1..];
      }
      if |a'| < |b'| && a' == b'[..|a'|] {
        assert b[..|a|] == [b[0]] + b'[..|a'|];
      }
      forall k | 1 <= k < |a| && k < |b| && a[..k] == b[..k]
        ensures a'[..k - 1] == b'[..k - 1] && a'[k - 1] == a[k] && b'[k - 1] == b[k]
      {
        assert a'[..k - 1] == a[..k][1..] && b'[..k - 1] == b[..k][1..];
      }
      forall k | 0 <= k < |a'| && k < |b'| && a'[..k] == b'[..k]
        ensures a[..k + 1] == b[..k + 1] && a[k + 1] == a'[k] && b[k + 1] == b'[k]
      {
        assert a[..k + 1] == [a[0]] + a'[..k] && b[..k + 1] == [b[0]] + b'[..k];
      }
    }
  }

  // ---------------------------------------------------------------------
  // ASCII decimal digits

  predicate IsDigit(c: char) {
    '0' <= c <= '9'
  }

  predicate AllDigits(s: string) {
    forall i :: 0 <= i < |s| ==> IsDigit(s[i])
  }

  /** A digit string as Python's `str(n)` writes it: no leading zero unless it is "0". */
  predicate Canonical(s: string) {
    |s| >= 1 && AllDigits(s) && (|s| == 1 || s[0] != '0')
  }

  function DigitValue(c: char): (d: nat)
    requires IsDigit(c)
    ensures d < 10
  {
    c as int - '0' as int
  }

  function DigitChar(d: nat): (c: char)
    requires d < 10
    ensures IsDigit(c) && DigitValue(c) == d
  {
    ('0' as int + d) as char
  }

  /** The number a digit string denotes, as Python's `int(s)` reads it
      (leading zeros allowed). */
  function DecimalValue(s: string): (v: nat)
    requires AllDigits(s)
    ensures |s| >= 1 && s[0] == '0' ==> v == DecimalValue(s[1..])
    decreases |s|
  {
    if |s| == 0 then 0
    else
      var p := s[..|s| - 1];
      assert |s| >= 2 ==> p[0] == s[0] && p[1..] == s[1..][..|s| - 2];
      assert |s| == 1 ==> p == [] && s[1..] == [];
      10 * DecimalValue(p) + DigitValue(s[|s| - 1])
  }

  /** Python's `str(n)` for a natural number. */
  function DecimalString(n: nat): (s: string)
    ensures Canonical(s)
    decreases n
  {
    if n < 10 then [DigitChar(n)] else DecimalString(n / 10) + [DigitChar(n % 10)]
  }

  /** Reading back what `DecimalString` wrote gives the number again. */
  lemma {:induction false} DecimalRoundTrip(n: nat)
    ensures DecimalValue(DecimalString(n)) == n
    decreases n
  {
    var s := DecimalString(n);
    if n >= 10 {
      DecimalRoundTrip(n / 10);
      assert s[..|s| - 1] == DecimalString(n / 10);
    }
  }

  /** A digit string whose value is zero consists of zeros only. */
  lemma {:induction false} ZeroValueAllZeros(s: string)
    requires AllDigits(s) && DecimalValue(s) == 0
    ensures forall i :: 0 <= i < |s| ==> s[i] == '0'
    decreases |s|
  {
    if |s| > 0 {
      ZeroValueAllZeros(s[..|s| - 1]);
      forall i | 0 <= i < |s|
        ensures s[i] == '0'
      {
        if i < |s| - 1 {
          assert s[i] == s[..|s| - 1][i];
        }
      }
    }
  }

  /** Writing back the value of a canonical digit string gives the string again,
      so `DecimalString` is a bijection between naturals and canonical strings. */
  lemma {:induction false} CanonicalRoundTrip(s: string)
    requires Canonical(s)
    ensures DecimalString(DecimalValue(s)) == s
    decreases |s|
  {
    var n := DecimalValue(s);
    if |s| == 1 {
      assert s[..0] == [];
      assert DecimalValue(s[..0]) == 0;
      assert n == DigitValue(s[0]);
      assert s == [DigitChar(n)];
    } else {
      var p := s[..|s| - 1];
      assert p[0] == s[0];
      if DecimalValue(p) == 0 {
        ZeroValueAllZeros(p);
        assert false;
      }
      assert n / 10 == DecimalValue(p);
      assert n % 10 == DigitValue(s[|s| - 1]);
      CanonicalRoundTrip(p);
      assert s == p + [s[|s| - 1]];
    }
  }

  /** `part in s` for Python strings: `part` occurs somewhere in `s`. */
  predicate Contains(s: string, part: string) {
    exists i, j :: 0 <= i <= j <= |s| && s[i..j] == part
  }

  // ---------------------------------------------------------------------
  // Joining

  /** Python's `sep.join(parts)`. */
  function Join(parts: seq<string>, sep: string): (r: string)
    decreases |parts|
  {
    if |parts| == 0 then ""
    else if |parts| == 1 then parts[0]
    else parts[0] + sep + Join(parts[1..], sep)
  }

  /** Joining loses nothing: every part occurs in the joined text. */
  lemma {:induction false} JoinContainsPart(parts: seq<string>, sep: string, i: nat)
    requires i < |parts|
    ensures Contains(Join(parts, sep), parts[i])
    decreases |parts|
  {
    var r := Join(parts, sep);
    if |parts| == 1 {
      assert r[0..|r|] == parts[0];
    } else if i == 0 {
      assert r[0..|parts[0]|] == parts[0];
    } else {
      var rest := Join(parts[1..], sep);
      JoinContainsPart(parts[1..], sep, i - 1);
      var x, y :| 0 <= x <= y <= |rest| && rest[x..y] == parts[1..][i - 1];
      var off := |parts[0] + sep|;
      assert r == (parts[0] + sep) + rest;
      assert r[off + x..off + y] == rest[x..y];
    }
  }

  // ---------------------------------------------------------------------
  // Splitting

  /** Python's `s.partition(c)` when `c` occurs: the text before the first `c`
      and the text after it; `None` when `c` does not occur. */
  function SplitAtFirst(s: string, c: char): (r: Option<(string, string)>)
    ensures r.Some? ==> s == r.value.0 + [c] + r.value.1 && c !in r.value.0
    ensures r.None? ==> c !in s
    decreases |s|
  {
    if |s| == 0 then None
    else if s[0] == c then
      assert s == [] + [c] + s[1..];
      Some(([], s[1..]))
    else
      match SplitAtFirst(s[1..], c)
      case None => None
      case Some((x, y)) =>
        assert s == [s[0]] + s[1..];
        Some(([s[0]] + x, y))
  }

  /** Splitting at the first separator undoes gluing two texts with it, provided
      the separator does not occur in the first text. */
  lemma {:induction false} SplitAfterPrefix(k: string, c: char, v: string)
    requires c !in k
    ensures SplitAtFirst(k + [c] + v, c) == Some((k, v))
    decreases |k|
  {
    if |k| == 0 {
      assert k + [c] + v == [c] + v;
    } else {
      assert (k + [c] + v)[1..] == k[1..] + [c] + v;
      SplitAfterPrefix(k[1..], c, v);
      assert [k[0]] + k[1..] == k;
    }
  }
}

=== FILE: wrappers.dfy ===
/** Wrappers used throughout the model: an optional value
    (a Python `dict.get` that may miss) and a result that carries either a
    value or the reason the program would stop with a non-zero exit status. */
module Wrappers {

  datatype Option<+T> = None | Some(value: T) {

    /** The wrapped value, or `default` when there is none (Python's `d.get(k, default)`). */
    function GetOr(default: T): T {
      match this
      case Some(v) => v
      case None => default
    }
  }

  datatype Result<+T, +E> = Success(value: T) | Failure(error: E)
}
